=== FILE: README.md ===
# Diff Apply core, in Dafny

A model of the pure logic inside the Obsidian "Diff Apply" plugin. The plugin shows an
original passage, a modified passage and an editable result pane side by side. The
model covers three parts of it:

- **Line classification** (`LineDiff`). Two asymmetric maps from line index to
  `unchanged | modified | removed | added`. The original-relative view reports every
  dropped or changed line. The modified-relative view reports only genuine insertions.
- **Smart newline padding** (`SmartInsert`). How many leading newlines a copied line
  wants, judged by whether the line before it in the source is blank. Also how many
  `\n` to prepend at a target cursor: existing newlines are topped up, and nothing is
  padded in the middle of a line.
- **Editor session logic** (`EditHistory`, `DiffPanel`, `EditorText`). The bounded
  undo/redo history of the result pane and the three-position diff overlay. Also
  reading a textarea selection, the line under a double-click, and the splice that
  copies text into the result pane.

`JsString` writes out the JavaScript string built-ins these rely on, with their
ECMAScript clamping rules. These are `trim`, `indexOf`, `lastIndexOf`, `substring` and
`repeat`. `Wrappers` holds `Option`.

The character diff of the `diff` package (`diffChars`) is not modelled. The code
consults it only as "some part is added or removed", and only after the two lines were
found unequal. `LineDiff.OriginalViewDiffCharsIsInequality` and
`LineDiff.ModifiedViewDiffCharsIsInequality` prove that deciding by inequality gives
the same status, each for the diff direction its view uses. This holds for any edit script that satisfies the
package's round-trip contract. So the `else unchanged` fallbacks after the character
diff are dead code.

Two points about the code:
- `SmartInsert.IsMidLine` counts any character other than `\n` at the cursor as line
  content, spaces included, as `getSmartLeadingNewlinesForTarget` does.
- `getDesiredLeadingNewlineCountFromSource` and `getSmartLeadingNewlinesForTarget` have
  no caller in `src/`, although `src/types.ts` declares a `smartDblClickInsertNewlines`
  setting. They are modelled on their own.

## Model

| member | source | states |
|---|---|---|
| JsString.IndexOf | src/utils/smartInsert.ts:32 | `indexOf` clamps the start position into `[0, |s|]` and yields the first index at or after it holding the character, or -1 when there is none |
| JsString.LastIndexOf | src/utils/smartInsert.ts:10 | `lastIndexOf` clamps the position into `[0, |s|]`, so a negative position searches index 0. It yields the last index at or before that position (and below `|s|`) holding the character, or -1 when there is none |
| JsString.Substring | src/utils/smartInsert.ts:11 | `substring` takes the slice between its bounds in either order: `s[a..b]` or `s[b..a]`; an end at or past `|s|` takes the rest of the text; two bounds at or below 0 give `""`; with one bound at or below 0 and the other in range the result is the prefix up to that bound; with one bound in range and the other at or past `|s|` it is the suffix from that bound |
| JsString.Repeat | src/utils/smartInsert.ts:51 | `"\n".repeat(n)` is a string of exactly `n` characters, each of them the repeated character |
| JsString.Trim | src/utils/smartInsert.ts:13 | `trim()` yields the empty string exactly when every character is ECMAScript whitespace or a line terminator |
| LineDiff.UnchangedPartsAgree | src/utils/lineDiff.ts:18-19 | an edit script with no added or removed part spells the same text on its old and new sides |
| LineDiff.DiffCharsSeesDifference | src/utils/lineDiff.ts:18-21 | for two different lines, every edit script that rebuilds both of them has an added or removed part, so `hasChanges` holds |
| LineDiff.OriginalViewDiffCharsIsInequality | src/utils/lineDiff.ts:18-29 | for any correct script of the original line into the modified line, as `diffChars(line, modifiedLine)` returns, the status equals the one decided by `line != modifiedLine`; the `else unchanged` branch never decides |
| LineDiff.ModifiedViewDiffCharsIsInequality | src/utils/lineDiff.ts:59-70 | for any correct script of the original line into the modified line, as `diffChars(originalLine, line)` returns, the modified-view status equals the one decided by `line != originalLine`; the `else unchanged` branch never decides |
| LineDiff.ComputeLineDiff | src/utils/lineDiff.ts:6-37 | keys are exactly `0..|original|-1`; indices past the modified text are `removed`; equal lines are `unchanged`; unequal lines are `modified` if the modified line is non-blank and `removed` if it is blank; never `added` |
| LineDiff.ComputeModifiedLineDiff | src/utils/lineDiff.ts:39-79 | keys are exactly `0..|modified|-1`; indices past the original text are `added`; otherwise `added` iff the lines differ and the original line is blank; only `unchanged` or `added` ever appear |
| LineDiff.InPlaceEditHiddenInModifiedView | src/utils/lineDiff.ts:62-67 | an edit between two non-blank lines is `modified` in the original view and `unchanged` in the modified view |
| LineDiff.ExampleModifiedLine | tests/lineDiff.test.ts:5-14 | `["alpha","bravo","charlie"]` against `["alpha","bravo!","charlie"]` gives unchanged, modified, unchanged |
| LineDiff.ExampleRemovedLine | tests/lineDiff.test.ts:16-23 | a shorter modified text marks original index 2 `removed` |
| LineDiff.ExampleAddedLine | tests/lineDiff.test.ts:25-32 | `["alpha",""]` against `["alpha","bravo"]` marks modified index 1 `added` |
| SmartInsert.LineStartOf | src/utils/smartInsert.ts:10 | the start of the line holding index `k` is 0 or follows a `\n`, and no `\n` lies between it and `k` |
| SmartInsert.DesiredLeadingNewlineCount | src/utils/smartInsert.ts:1-14 | the result is 1 or 2; 1 whenever `lineStartIndex <= 0`; otherwise 2 exactly when the sliced previous line is blank |
| SmartInsert.FindBackwardIsLineStart | src/utils/smartInsert.ts:10 | one past the last `\n` at or before `k - 1` is the start of the line holding `k` |
| SmartInsert.PreviousLineIsLineBefore | src/utils/smartInsert.ts:9-11 | for `lineStartIndex >= 2`, the `lastIndexOf` and `substring` slice is exactly the text from the start of the previous line up to `lineStartIndex - 1` |
| SmartInsert.PreviousLineAtOneIsBlank | src/utils/smartInsert.ts:9-13 | at `lineStartIndex == 1`, the clamped `lastIndexOf` and the swapped `substring` still yield a blank slice |
| SmartInsert.DesiredCountFollowsPreviousLine | src/utils/smartInsert.ts:5-13 | for `1 <= lineStartIndex <= |source|`, the result is 2 iff the line before it is empty or all whitespace, else 1 |
| SmartInsert.NewlineRunEndingAt | src/utils/smartInsert.ts:42-48 | the count is the length of the maximal run of `\n` ending at the given index |
| SmartInsert.SmartLeadingNewlines | src/utils/smartInsert.ts:16-52 | the output is only `\n` and at most `desired` long. It is empty when `desired <= 0`, the target is empty, the cursor is out of `(0, |target|]`, or the cursor is mid-line. Otherwise `existing + |result| == max(desired, existing)`, where `existing` is the maximal `\n` run before the cursor |
| SmartInsert.NewlineRunExtends | src/utils/smartInsert.ts:42-48 | appending `k` newlines after an unchanged prefix lengthens the run before the cursor by exactly `k` |
| SmartInsert.PaddingIdempotent | src/utils/smartInsert.ts:50-51 | after splicing in the padding, asking again at the shifted cursor yields `""` |
| SmartInsert.ExampleDesiredAfterText | tests/smartInsert.test.ts:8-12 | a line after a non-blank line wants 1 newline |
| SmartInsert.ExampleDesiredAfterBlank | tests/smartInsert.test.ts:14-18 | a line after a whitespace-only line wants 2 newlines |
| SmartInsert.ExamplePadding | tests/smartInsert.test.ts:20-46 | the test expectations: empty target with desired 2 and 1, start of target, end of text, top-up at line start, and mid-line suppression |
| EditHistory.Open | src/ui/HybridDiffModal.ts:393-396 | the editor starts with the history `[text]` at index 0, not composing, with the pre-composition text equal to `text`; at that point neither undo nor redo shows anything |
| EditHistory.AddToHistory | src/ui/HybridDiffModal.ts:447-458 | the new index is the last entry and that entry is the value. The entries up to the old index are kept in order and the redo tail is dropped. The oldest entry is shifted out only when the cap of 100 is exceeded, so a history of at most 100 stays at most 100 |
| EditHistory.IndexOfText | src/ui/HybridDiffModal.ts:420 | `indexOf` yields the first position holding the text, or -1 when it is absent |
| EditHistory.UndoAsWritten | src/ui/HybridDiffModal.ts:415-428 | as written: a composing undo shows the pre-composition text, points at it and keeps it as the pre-composition text. When that text is in the history, the history is unchanged and the index is its first occurrence. A non-composing undo steps back only from an index above 0, shows that entry, and changes neither the history nor the pre-composition text |
| EditHistory.UndoAsWrittenDiscardsHistory | src/ui/HybridDiffModal.ts:417-423 | as written, a composing undo whose pre-composition text is not in the history leaves a history of that one text |
| EditHistory.UndoAsWrittenLosesTwoEntries | src/ui/HybridDiffModal.ts:417-423 | a concrete instance: history `["a","ab"]` becomes `["xyz"]` |
| EditHistory.Undo | src/ui/HybridDiffModal.ts:415-428 | as `UndoAsWritten`, a composing undo shows and keeps the pre-composition text; a found pre-composition text leaves the history unchanged and moves the index to its first occurrence. A missing one is appended after the current entry, keeping the entries up to it (less the oldest at the cap) and dropping the redo tail. Validity is preserved |
| EditHistory.Redo | src/ui/HybridDiffModal.ts:431-441 | steps forward only when the index is below the last entry and shows that entry; the history, the composing flag and the pre-composition text are never changed |
| EditHistory.CompositionStart | src/ui/HybridDiffModal.ts:398-401 | marks composing and remembers the editor text, leaving the history alone |
| EditHistory.CompositionEnd | src/ui/HybridDiffModal.ts:403-406 | ends composing and records the composed text as the new current, last entry. It comes after the entries up to the old current one, less the oldest at the cap, and the redo tail is dropped; the pre-composition text is unchanged |
| EditHistory.Input | src/ui/HybridDiffModal.ts:408-412 | edits during a composition leave the session alone. Any other edit becomes the new current, last entry, after the entries up to the old current one (less the oldest at the cap), and the redo tail is dropped. In both cases the composing flag and the pre-composition text are unchanged |
| EditHistory.UndoRevertsEdit | src/ui/HybridDiffModal.ts:424-427 | undo right after recording an edit shows the text the edit replaced, also when the cap shifted the history |
| EditHistory.RedoAfterUndo | src/ui/HybridDiffModal.ts:424-440 | redo after an undo restores the session and shows the entry the undo left |
| EditHistory.UndoAfterRedo | src/ui/HybridDiffModal.ts:424-440 | undo after a redo restores the session and shows the entry the redo left |
| EditHistory.EditClearsRedo | src/ui/HybridDiffModal.ts:448-450 | after any recorded edit there is nothing to redo |
| DiffPanel.MoveDiffLeft | src/ui/HybridDiffModal.ts:265-273 | center goes to left, right goes to center, left stays; the panes change only when the overlay moves |
| DiffPanel.MoveDiffRight | src/ui/HybridDiffModal.ts:275-283 | left goes to center, center goes to right, right stays; the panes change only when the overlay moves |
| DiffPanel.MovesAreInverse | src/ui/HybridDiffModal.ts:265-283 | a move not stopped by an edge is undone by the opposite move |
| DiffPanel.TwoMovesReachEdge | src/ui/HybridDiffModal.ts:265-283 | two moves in one direction reach that edge from any position |
| EditorText.GetSelectedText | src/ui/HybridDiffModal.ts:627-636 | the result is the selected slice `value[start..end]`, and it is `""` iff `start == end` |
| EditorText.InsertAtCursor | src/ui/HybridDiffModal.ts:647-655 | the new text is the old text before the selection, then the inserted text, then the old text after the selection; its length is `|old| - (end - start) + |text|`; the flashed range holds the inserted text |
| EditorText.InsertedRangeSelectsText | src/ui/HybridDiffModal.ts:651-657 | selecting the flashed range of the new text reads back exactly the inserted text |
| EditorText.CopySelection | src/ui/HybridDiffModal.ts:590-613 | copying from a side pane changes nothing when the selection is empty; otherwise it splices the selected text over the result pane's selection |
| EditorText.LineBoundsAsWritten | src/ui/HybridDiffModal.ts:352-355 | as written: the end is the next `\n` at or after the cursor, or the end of text, with no `\n` from the cursor to it; the start is at most one past the cursor; no `\n` lies between start and end |
| EditorText.LineBoundsAsWrittenInverted | src/ui/HybridDiffModal.ts:353 | as written, at cursor 0 in a text starting with `\n`, the bounds come out as start 1 and end 0 |
| EditorText.LineBounds | src/ui/HybridDiffModal.ts:352-355 | `lineStart <= cursor <= lineEnd`; the start is 0 or follows a `\n`; the end is the next `\n` or the end of text; the line holds no `\n` |
| EditorText.LineBoundsAgree | src/ui/HybridDiffModal.ts:352-355 | apart from that one case, the corrected bounds are the bounds the code computes |
| EditorText.DoubleClickLine | src/ui/HybridDiffModal.ts:349-359 | a double-click yields the whole line `[lineStart, lineEnd)` around the cursor exactly when that line is not blank, and nothing otherwise |
| EditorText.DoubleClickUnaffectedByInversion | src/ui/HybridDiffModal.ts:353-359 | the line copied with the corrected bounds is the one the code copies; the inverted slice is `"\n"`, which is blank |
| EditorText.DoubleClickCopy | src/ui/HybridDiffModal.ts:349-366 | the double-click inserts exactly when the line under the cursor is not blank. The result pane then holds its text before the selection, that whole line, and its text after the selection |

## Left out

- `diffChars` from the `diff` package: foreign code with no source here. Only the
  round-trip contract of its result is used.
- The per-character colouring of the unified diff (`createUnifiedDiffContent`), DOM
  construction, styling, overlays, scroll save and restore, focus, the copy-flash timer,
  `setTimeout` debouncing, the global keyboard dispatch and the `Notice` shown when copying
  with an empty selection (`CopySelection` returns `None` there). These are presentation.
- The tokenizer, paragraph-marker alignment and the default/hover/complete views are not
  part of this model.
- `src/main.ts`: plugin registration, the asynchronous clipboard read and
  `editor.replaceRange`. `src/settings/DiffApplySettingTab.ts`, `src/i18n.ts`,
  `src/types.ts` and the build scripts: settings UI, string tables and tooling.
- `DiffViewPosition` is imported from `src/types.ts`, which declares no such type. It is
  modelled as the three positions the move functions distinguish.
- The guards on missing editors, edit mode and the textarea tag in the handlers. These
  are DOM states the model does not represent.
- The `input` event that `insertAtCursor` dispatches. In the result pane this records
  the new text through `EditHistory.Input`, but the two are not composed in one member.
- Strings are sequences of Unicode scalar values. Unpaired UTF-16 surrogates, which a
  JavaScript string may hold, cannot be represented.
- Positions and lengths count Unicode scalar values. `selectionStart`, `indexOf` and
  `length` count UTF-16 code units, so a character outside the Basic Multilingual Plane is
  one position here and two in JavaScript. Every character the code inspects (`\n` and
  the whitespace set) is in that plane, so the decisions are the same. Only the numeric
  positions differ on such text.
- JavaScript `number` positions and counts are modelled as integers.
  Fractional, infinite or NaN values of `cursorIndex`, `lineStartIndex` or
  `desiredLeadingNewlines` are not modelled. Textarea positions are always integers.
- EditorText.GetSelectedText, EditorText.InsertAtCursor, EditorText.CopySelection: these
  require the browser's selection invariant `0 <= start <= end <= |value|`. The
  substring clamping outside that range is not stated.

## Findings

| source | as written | input that shows it | evidently intended | confidence | as-written member | corrected member |
|---|---|---|---|---|---|---|
| src/ui/HybridDiffModal.ts:353 | `lastIndexOf("\n", cursorPos - 1) + 1` as the line start | text `"\nabc"`, cursor 0: start 1, end 0 | the line start is never after the cursor | not executed; harmless, because `substring` swaps the bounds and the resulting `"\n"` is blank, so nothing is copied (`EditorText.DoubleClickUnaffectedByInversion`) | EditorText.LineBoundsAsWrittenInverted | EditorText.LineBounds |
| src/ui/HybridDiffModal.ts:420-422 | a composing undo sets `historyIndex` to `indexOf(preCompositionText)`, then calls `addToHistory` with -1 when the text is absent, which slices the history to nothing | history `["a","ab"]` at index 1, composing from `"xyz"` (text set without an `input` event, as "copy all" does): the history becomes `["xyz"]` | the absent text is recorded after the current entry and earlier entries stay undoable | not executed; medium | EditHistory.UndoAsWrittenDiscardsHistory | EditHistory.Undo |

=== FILE: diff_panel.dfy ===
/**
  The diff overlay of src/ui/HybridDiffModal.ts sits over one of the three
  panes; the arrow shortcuts move it one pane left or right and stop at the
  edges. The panes are redrawn only when the position changes.
*/
module DiffPanel {

  datatype DiffViewPosition = Left | Center | Right

  /** Pane number, counted from the left. */
  function Column(p: DiffViewPosition): int {
    match p
    case Left => 0
    case Center => 1
    case Right => 2
  }

  /** `moveDiffLeft` */
  function MoveDiffLeft(p: DiffViewPosition): (r: DiffViewPosition)
    ensures Column(r) == if Column(p) == 0 then 0 else Column(p) - 1
    ensures r == p <==> p == Left
  {
    if p == Center then Left
    else if p == Right then Center
    else p
  }

  /** `moveDiffRight` */
  function MoveDiffRight(p: DiffViewPosition): (r: DiffViewPosition)
    ensures Column(r) == if Column(p) == 2 then 2 else Column(p) + 1
    ensures r == p <==> p == Right
  {
    if p == Left then Center
    else if p == Center then Right
    else p
  }

  /** Moving back undoes a move that was not stopped by an edge. */
  lemma MovesAreInverse(p: DiffViewPosition)
    ensures p != Left ==> MoveDiffRight(MoveDiffLeft(p)) == p
    ensures p != Right ==> MoveDiffLeft(MoveDiffRight(p)) == p
  {
  }

  /** Two moves in one direction reach the edge from anywhere. */
  lemma TwoMovesReachEdge(p: DiffViewPosition)
    ensures MoveDiffLeft(MoveDiffLeft(p)) == Left
    ensures MoveDiffRight(MoveDiffRight(p)) == Right
  {
  }

}

=== FILE: edit_history.dfy ===
/**
  The bounded undo/redo history of the editable pane in
  src/ui/HybridDiffModal.ts, lifted out of the DOM as an immutable session
  record. The textarea's current text is passed in where a handler reads it,
  and the text a handler writes back into the textarea is returned.
*/
module EditHistory {
  import opened Wrappers

  /** At most this many texts are remembered. */
  const MaxHistory: nat := 100

  datatype Session = Session(
    history: seq<string>,
    historyIndex: int,
    isComposing: bool,
    preCompositionText: string)

  /** What a key handler leaves behind: the new session and the text it put in the textarea, if any. */
  datatype Step = Step(session: Session, shown: Option<string>)

  /** The history is non-empty, bounded, and its index points at an entry. */
  predicate Valid(s: Session) {
    0 <= s.historyIndex < |s.history| <= MaxHistory
  }

  /** The session the editor starts with (`createEditableEditor`). */
  function Open(text: string): (s: Session)
    ensures Valid(s)
    ensures s.history == [text] && s.historyIndex == 0
    ensures !s.isComposing && s.preCompositionText == text
    ensures Undo(s).shown == None && Redo(s).shown == None
  {
    Session([text], 0, false, text)
  }

  /**
    `addToHistory`: drop the redo tail after the current index, append the
    value, and shift out the oldest entry once the cap is exceeded. The index
    may be -1, which is what the composition branch of undo passes when the
    text before the composition is not in the history.
  */
  function AddToHistory(s: Session, value: string): (r: Session)
    requires -1 <= s.historyIndex < |s.history|
    ensures |r.history| >= 1 && r.historyIndex == |r.history| - 1
    ensures r.history[r.historyIndex] == value
    ensures var kept := s.history[..s.historyIndex + 1];
            && (|kept| < MaxHistory ==> r.history == kept + [value])
            && (|kept| >= MaxHistory ==> r.history == kept[1..] + [value])
    ensures |s.history| <= MaxHistory ==> |r.history| <= MaxHistory
    ensures r.isComposing == s.isComposing && r.preCompositionText == s.preCompositionText
  {
    var history := if s.historyIndex < |s.history| - 1 then s.history[..s.historyIndex + 1] else s.history;
    var history := history + [value];
    var historyIndex := s.historyIndex + 1;
    if |history| > MaxHistory then
      s.(history := history[1..], historyIndex := historyIndex - 1)
    else
      s.(history := history, historyIndex := historyIndex)
  }

  /**
    `r` holds `value` as its current, last entry after the entries of `s` up
    to its current one, less the oldest when the cap is reached: the redo
    tail of `s` is gone.
  */
  predicate RecordedAfterCurrent(s: Session, r: Session, value: string)
    requires -1 <= s.historyIndex < |s.history|
  {
    var kept := s.history[..s.historyIndex + 1];
    && r.history == (if |kept| < MaxHistory then kept else kept[1..]) + [value]
    && r.historyIndex == |r.history| - 1
  }

  /** `history.indexOf(text)`: the first position holding `text`, or -1. */
  function IndexOfText(history: seq<string>, text: string): (r: int)
    ensures r == -1 ==> text !in history
    ensures r != -1 ==> 0 <= r < |history| && history[r] == text
    ensures forall j :: 0 <= j < r ==> history[j] != text
  {
    if |history| == 0 then -1
    else if history[0] == text then 0
    else
      var r := IndexOfText(history[1..], text);
      if r == -1 then -1 else r + 1
  }

  /**
    Undo (Ctrl/Cmd+Z without Shift) as the handler is written. While an input
    method is composing it restores the text from before the composition and
    moves the index onto that text in the history, adding it when absent;
    otherwise it steps back one entry when there is one.
  */
  function UndoAsWritten(s: Session): (r: Step)
    requires Valid(s)
    ensures Valid(r.session)
    ensures s.isComposing ==>
      && r.shown == Some(s.preCompositionText)
      && !r.session.isComposing
      && r.session.history[r.session.historyIndex] == s.preCompositionText
      && r.session.preCompositionText == s.preCompositionText
    ensures s.isComposing && s.preCompositionText in s.history ==>
      r.session.history == s.history && r.session.historyIndex == IndexOfText(s.history, s.preCompositionText)
    ensures !s.isComposing ==>
      && r.session.history == s.history
      && !r.session.isComposing
      && r.session.preCompositionText == s.preCompositionText
    ensures !s.isComposing && s.historyIndex > 0 ==>
      r.session.historyIndex == s.historyIndex - 1 && r.shown == Some(s.history[s.historyIndex - 1])
    ensures !s.isComposing && s.historyIndex == 0 ==> r == Step(s, None)
  {
    if s.isComposing then
      var s' := s.(isComposing := false, historyIndex := IndexOfText(s.history, s.preCompositionText));
      var s'' := if s'.historyIndex == -1 then AddToHistory(s', s.preCompositionText) else s';
      Step(s'', Some(s.preCompositionText))
    else if s.historyIndex > 0 then
      Step(s.(historyIndex := s.historyIndex - 1), Some(s.history[s.historyIndex - 1]))
    else
      Step(s, None)
  }

  /**
    When the text from before the composition is missing from the history,
    the undo above calls `addToHistory` with index -1, which keeps nothing of
    the old history.
  */
  lemma UndoAsWrittenDiscardsHistory(s: Session)
    requires Valid(s) && s.isComposing && s.preCompositionText !in s.history
    ensures UndoAsWritten(s).session.history == [s.preCompositionText]
  {
  }

  /** An instance: two remembered texts are lost. */
  lemma UndoAsWrittenLosesTwoEntries()
    ensures UndoAsWritten(Session(["a", "ab"], 1, true, "xyz")).session.history == ["xyz"]
  {
    UndoAsWrittenDiscardsHistory(Session(["a", "ab"], 1, true, "xyz"));
  }

  /**
    Undo with the composition branch corrected: a missing pre-composition
    text is appended after the current entry, as any other edit is.
  */
  function Undo(s: Session): (r: Step)
    requires Valid(s)
    ensures Valid(r.session)
    ensures s.isComposing ==>
      && r.shown == Some(s.preCompositionText)
      && !r.session.isComposing
      && r.session.history[r.session.historyIndex] == s.preCompositionText
      && r.session.preCompositionText == s.preCompositionText
    ensures s.isComposing && s.preCompositionText !in s.history ==>
      RecordedAfterCurrent(s, r.session, s.preCompositionText)
    ensures s.isComposing && s.preCompositionText in s.history ==>
      r.session.history == s.history && r.session.historyIndex == IndexOfText(s.history, s.preCompositionText)
    ensures !s.isComposing ==>
      && r.session.history == s.history
      && !r.session.isComposing
      && r.session.preCompositionText == s.preCompositionText
    ensures !s.isComposing && s.historyIndex > 0 ==>
      r.session.historyIndex == s.historyIndex - 1 && r.shown == Some(s.history[s.historyIndex - 1])
    ensures !s.isComposing && s.historyIndex == 0 ==> r == Step(s, None)
  {
    if s.isComposing then
      var found := IndexOfText(s.history, s.preCompositionText);
      var s' := s.(isComposing := false);
      var s'' := if found == -1 then AddToHistory(s', s.preCompositionText) else s'.(historyIndex := found);
      Step(s'', Some(s.preCompositionText))
    else if s.historyIndex > 0 then
      Step(s.(historyIndex := s.historyIndex - 1), Some(s.history[s.historyIndex - 1]))
    else
      Step(s, None)
  }

  /** Redo (Ctrl/Cmd+Y or Ctrl/Cmd+Shift+Z): step forward one entry when there is one. */
  function Redo(s: Session): (r: Step)
    requires Valid(s)
    ensures Valid(r.session)
    ensures r.session.history == s.history && r.session.isComposing == s.isComposing
    ensures r.session.preCompositionText == s.preCompositionText
    ensures s.historyIndex < |s.history| - 1 ==>
      r.session.historyIndex == s.historyIndex + 1 && r.shown == Some(s.history[s.historyIndex + 1])
    ensures s.historyIndex == |s.history| - 1 ==> r == Step(s, None)
  {
    if s.historyIndex < |s.history| - 1 then
      Step(s.(historyIndex := s.historyIndex + 1), Some(s.history[s.historyIndex + 1]))
    else
      Step(s, None)
  }

  /** `compositionstart`: remember the text the composition started from. */
  function CompositionStart(s: Session, editorValue: string): (r: Session)
    ensures r.isComposing && r.preCompositionText == editorValue
    ensures r.history == s.history && r.historyIndex == s.historyIndex
  {
    s.(isComposing := true, preCompositionText := editorValue)
  }

  /** `compositionend`: the composed text becomes a history entry. */
  function CompositionEnd(s: Session, editorValue: string): (r: Session)
    requires Valid(s)
    ensures Valid(r) && !r.isComposing
    ensures RecordedAfterCurrent(s, r, editorValue)
    ensures r.preCompositionText == s.preCompositionText
  {
    AddToHistory(s.(isComposing := false), editorValue)
  }

  /** `input`: outside a composition every edit becomes a history entry. */
  function Input(s: Session, editorValue: string): (r: Session)
    requires Valid(s)
    ensures Valid(r)
    ensures s.isComposing ==> r == s
    ensures !s.isComposing ==> RecordedAfterCurrent(s, r, editorValue)
    ensures r.isComposing == s.isComposing && r.preCompositionText == s.preCompositionText
  {
    if s.isComposing then s else AddToHistory(s, editorValue)
  }

  /** Undo after an edit brings back the text the edit replaced, even when the cap shifted the history. */
  lemma UndoRevertsEdit(s: Session, value: string)
    requires Valid(s) && !s.isComposing
    ensures var r := Undo(AddToHistory(s, value));
            r.shown == Some(s.history[s.historyIndex])
  {
    var kept := s.history[..s.historyIndex + 1];
    var t := AddToHistory(s, value);
    if |kept| >= MaxHistory {
      assert t.history[t.historyIndex - 1] == kept[1..][t.historyIndex - 1];
    } else {
      assert t.history[t.historyIndex - 1] == kept[t.historyIndex - 1];
    }
  }

  /** Redo undoes an undo. */
  lemma RedoAfterUndo(s: Session)
    requires Valid(s) && !s.isComposing && s.historyIndex > 0
    ensures Redo(Undo(s).session) == Step(s, Some(s.history[s.historyIndex]))
  {
  }

  /** Undo undoes a redo. */
  lemma UndoAfterRedo(s: Session)
    requires Valid(s) && !s.isComposing && s.historyIndex < |s.history| - 1
    ensures Undo(Redo(s).session) == Step(s, Some(s.history[s.historyIndex]))
  {
  }

  /** An edit made after undoing discards the undone entries: nothing is left to redo. */
  lemma EditClearsRedo(s: Session, value: string)
    requires Valid(s)
    ensures Redo(AddToHistory(s, value)).shown == None
  {
  }

}

=== FILE: editor_text.dfy ===
/**
  Text operations on the modal's textareas in src/ui/HybridDiffModal.ts:
  reading the selection, finding the line under a double-click, and splicing
  copied text over the target's selection. A textarea is its text plus a
  selection `[start, end)` with `0 <= start <= end <= |value|`, which the
  browser maintains.
*/
module EditorText {
  import opened Wrappers
  import opened JsString

  /** The browser's invariant on a textarea selection. */
  predicate ValidRange(value: string, start: int, end: int) {
    0 <= start <= end <= |value|
  }

  /** `getSelectedText` */
  function GetSelectedText(value: string, start: int, end: int): (r: string)
    requires ValidRange(value, start, end)
    ensures r == value[start..end]
    ensures r == "" <==> start == end
  {
    if start == end then "" else Substring(value, start, end)
  }

  /** The result of `insertAtCursor`: the new text and the range the copied text now occupies. */
  datatype Insertion = Insertion(value: string, insertStart: int, insertEnd: int)

  /** `insertAtCursor`: replace the selection by `text`. */
  function InsertAtCursor(value: string, start: int, end: int, text: string): (r: Insertion)
    requires ValidRange(value, start, end)
    ensures |r.value| == |value| - (end - start) + |text|
    ensures r.insertStart == start && r.insertEnd == start + |text|
    ensures r.value[..start] == value[..start]
    ensures r.value[start..r.insertEnd] == text
    ensures r.value[r.insertEnd..] == value[end..]
  {
    var before := Substring(value, 0, start);
    var after := Substring(value, end, |value|);
    var newValue := before + text + after;
    assert newValue[start..start + |text|] == text;
    Insertion(newValue, start, start + |text|)
  }

  /** The range flashed after an insertion selects exactly the inserted text. */
  lemma InsertedRangeSelectsText(value: string, start: int, end: int, text: string)
    requires ValidRange(value, start, end)
    ensures var r := InsertAtCursor(value, start, end, text);
            ValidRange(r.value, r.insertStart, r.insertEnd)
            && GetSelectedText(r.value, r.insertStart, r.insertEnd) == text
  {
  }

  /** Copying the selection of a side pane into the result pane; `None` when nothing is selected. */
  function CopySelection(source: string, sourceStart: int, sourceEnd: int,
                         target: string, targetStart: int, targetEnd: int): (r: Option<Insertion>)
    requires ValidRange(source, sourceStart, sourceEnd)
    requires ValidRange(target, targetStart, targetEnd)
    ensures r.None? <==> sourceStart == sourceEnd
    ensures r.Some? ==> r.value.value == target[..targetStart] + source[sourceStart..sourceEnd] + target[targetEnd..]
  {
    var selectedText := GetSelectedText(source, sourceStart, sourceEnd);
    if selectedText != "" then Some(InsertAtCursor(target, targetStart, targetEnd, selectedText)) else None
  }

  /** Bounds of the line around `cursor` as the double-click handler computes them. */
  function LineBoundsAsWritten(value: string, cursor: int): (r: (int, int))
    requires 0 <= cursor <= |value|
    ensures 0 <= r.0 <= cursor + 1 && cursor <= r.1 <= |value|
    ensures r.1 == |value| || value[r.1] == '\n'
    ensures forall j :: r.0 <= j < r.1 ==> value[j] != '\n'
    ensures forall j :: cursor <= j < r.1 ==> value[j] != '\n'
  {
    var currentLineStart := LastIndexOf(value, '\n', cursor - 1) + 1;
    var nextNewline := IndexOf(value, '\n', cursor);
    var currentLineEnd := if nextNewline == -1 then |value| else nextNewline;
    (currentLineStart, currentLineEnd)
  }

  /**
    At the very start of a text that opens with '\n', `lastIndexOf` clamps
    its position -1 to 0 and finds that '\n', so the computed line starts
    after its own end.
  */
  lemma LineBoundsAsWrittenInverted(value: string)
    requires |value| > 0 && value[0] == '\n'
    ensures LineBoundsAsWritten(value, 0) == (1, 0)
  {
  }

  /** Line bounds with the cursor-0 case handled: the line is `[lineStart, lineEnd)`. */
  function LineBounds(value: string, cursor: int): (r: (int, int))
    requires 0 <= cursor <= |value|
    ensures var (lineStart, lineEnd) := r;
      && 0 <= lineStart <= cursor <= lineEnd <= |value|
      && (lineStart == 0 || value[lineStart - 1] == '\n')
      && (lineEnd == |value| || value[lineEnd] == '\n')
      && (forall j :: lineStart <= j < lineEnd ==> value[j] != '\n')
  {
    var currentLineStart := if cursor == 0 then 0 else LastIndexOf(value, '\n', cursor - 1) + 1;
    var nextNewline := IndexOf(value, '\n', cursor);
    var currentLineEnd := if nextNewline == -1 then |value| else nextNewline;
    (currentLineStart, currentLineEnd)
  }

  /** The two bounds agree everywhere except the inverted case. */
  lemma LineBoundsAgree(value: string, cursor: int)
    requires 0 <= cursor <= |value|
    requires cursor > 0 || |value| == 0 || value[0] != '\n'
    ensures LineBoundsAsWritten(value, cursor) == LineBounds(value, cursor)
  {
  }

  /** The line text the double-click handler copies, or `None` when that line is blank. */
  function DoubleClickLine(value: string, cursor: int): (r: Option<string>)
    requires 0 <= cursor <= |value|
    ensures var (lineStart, lineEnd) := LineBounds(value, cursor);
            && (r.Some? <==> !IsBlank(value[lineStart..lineEnd]))
            && (r.Some? ==> r.value == value[lineStart..lineEnd])
  {
    var (lineStart, lineEnd) := LineBounds(value, cursor);
    var lineContent := Substring(value, lineStart, lineEnd);
    assert lineContent == value[lineStart..lineEnd];
    if Trim(lineContent) != "" then Some(lineContent) else None
  }

  /** The inverted bounds never change what is copied: the text they slice is blank. */
  lemma DoubleClickUnaffectedByInversion(value: string, cursor: int)
    requires 0 <= cursor <= |value|
    ensures var (lineStart, lineEnd) := LineBoundsAsWritten(value, cursor);
            var lineContent := Substring(value, lineStart, lineEnd);
            DoubleClickLine(value, cursor) == if Trim(lineContent) != "" then Some(lineContent) else None
  {
    if cursor == 0 && |value| > 0 && value[0] == '\n' {
      assert Substring(value, 1, 0) == value[0..1];
      assert IsBlank(value[0..1]);
      assert LineBounds(value, 0) == (0, 0);
    } else {
      LineBoundsAgree(value, cursor);
    }
  }

  /** The double-click handler: copy the non-blank line under the cursor over the result pane's selection. */
  function DoubleClickCopy(source: string, cursor: int, target: string, targetStart: int, targetEnd: int): (r: Option<Insertion>)
    requires 0 <= cursor <= |source|
    requires ValidRange(target, targetStart, targetEnd)
    ensures var (lineStart, lineEnd) := LineBounds(source, cursor);
            && (r.Some? <==> !IsBlank(source[lineStart..lineEnd]))
            && (r.Some? ==> r.value.value == target[..targetStart] + source[lineStart..lineEnd] + target[targetEnd..])
  {
    match DoubleClickLine(source, cursor)
    case Some(line) => Some(InsertAtCursor(target, targetStart, targetEnd, line))
    case None => None
  }

}

=== FILE: js_string.dfy ===
/**
  The JavaScript string built-ins the plugin relies on, with their ECMAScript
  semantics written out: out-of-range positions are clamped, `substring`
  swaps reversed bounds, and `trim` strips the WhiteSpace and LineTerminator
  code points. Strings are sequences of characters.
*/
module JsString {

  function Min(a: int, b: int): int { if a <= b then a else b }

  function Max(a: int, b: int): int { if a <= b then b else a }

  /** `x` forced into `[lo, hi]`. */
  function Clamp(x: int, lo: int, hi: int): (r: int)
    requires lo <= hi
    ensures lo <= r <= hi
    ensures lo <= x <= hi ==> r == x
  {
    if x < lo then lo else if x > hi then hi else x
  }

  /** The code points ECMAScript calls WhiteSpace or LineTerminator. */
  predicate IsWhitespace(c: char) {
    || c == '\t' || c == '\n' || c == '\U{000B}' || c == '\U{000C}' || c == '\r'
    || c == ' ' || c == '\U{00A0}' || c == '\U{1680}' || ('\U{2000}' <= c <= '\U{200A}')
    || c == '\U{2028}' || c == '\U{2029}' || c == '\U{202F}' || c == '\U{205F}'
    || c == '\U{3000}' || c == '\U{FEFF}'
  }

  /** Every character is whitespace (the empty string included). */
  predicate IsBlank(s: string) {
    forall i :: 0 <= i < |s| ==> IsWhitespace(s[i])
  }

  /** Drops leading whitespace. */
  function TrimStart(s: string): (r: string)
    ensures |r| <= |s| && r == s[|s| - |r|..]
    ensures IsBlank(s[..|s| - |r|])
    ensures r == [] || !IsWhitespace(r[0])
  {
    if |s| > 0 && IsWhitespace(s[0]) then
      var r := TrimStart(s[1..]);
      assert s[..|s| - |r|] == [s[0]] + s[1..][..|s| - 1 - |r|];
      r
    else s
  }

  /** Drops trailing whitespace. */
  function TrimEnd(s: string): (r: string)
    ensures |r| <= |s| && r == s[..|r|]
    ensures IsBlank(s[|r|..])
    ensures r == [] || !IsWhitespace(r[|r| - 1])
  {
    if |s| > 0 && IsWhitespace(s[|s| - 1]) then
      var r := TrimEnd(s[..|s| - 1]);
      assert s[|r|..] == s[..|s| - 1][|r|..] + [s[|s| - 1]];
      r
    else s
  }

  /** `s.trim()`: whitespace removed from both ends. */
  function Trim(s: string): (r: string)
    ensures |r| == 0 <==> IsBlank(s)
    ensures r == [] || (!IsWhitespace(r[0]) && !IsWhitespace(r[|r| - 1]))
  {
    var t := TrimStart(s);
    assert IsBlank(t) ==> IsBlank(s) by {
      if IsBlank(t) {
        // a blank result of TrimStart cannot start with a non-whitespace character
        assert t == [];
        assert s[..|s| - |t|] == s;
      }
    }
    TrimEnd(t)
  }

  /** The first index `>= k` holding `c`, or -1. */
  function FindForward(s: string, c: char, k: nat): (r: int)
    requires k <= |s|
    ensures r == -1 || (k <= r < |s| && s[r] == c)
    ensures forall j :: k <= j < |s| && (r == -1 || j < r) ==> s[j] != c
    decreases |s| - k
  {
    if k == |s| then -1 else if s[k] == c then k else FindForward(s, c, k + 1)
  }

  /** The last index `<= k` holding `c`, or -1. */
  function FindBackward(s: string, c: char, k: int): (r: int)
    requires -1 <= k < |s|
    ensures r == -1 || (0 <= r <= k && s[r] == c)
    ensures forall j :: r < j <= k ==> s[j] != c
    decreases k + 1
  {
    if k < 0 then -1 else if s[k] == c then k else FindBackward(s, c, k - 1)
  }

  /** `s.indexOf(c, from)` for a one-character needle. */
  function IndexOf(s: string, c: char, from: int): (r: int)
    ensures r == -1 || (Clamp(from, 0, |s|) <= r < |s| && s[r] == c)
    ensures forall j :: Clamp(from, 0, |s|) <= j < |s| && (r == -1 || j < r) ==> s[j] != c
  {
    FindForward(s, c, Clamp(from, 0, |s|))
  }

  /** `s.lastIndexOf(c, from)` for a one-character needle: `from` is clamped to `[0, |s|]`. */
  function LastIndexOf(s: string, c: char, from: int): (r: int)
    ensures r == -1 || (0 <= r <= Min(Clamp(from, 0, |s|), |s| - 1) && s[r] == c)
    ensures forall j :: r < j <= Min(Clamp(from, 0, |s|), |s| - 1) ==> s[j] != c
  {
    FindBackward(s, c, Min(Clamp(from, 0, |s|), |s| - 1))
  }

  /** `s.substring(a, b)`: both bounds clamped into `[0, |s|]`, then ordered. */
  function Substring(s: string, a: int, b: int): (r: string)
    ensures 0 <= a <= b <= |s| ==> r == s[a..b]
    ensures 0 <= b <= a <= |s| ==> r == s[b..a]
    ensures 0 <= a <= |s| <= b ==> r == s[a..]
    ensures a <= 0 && b <= 0 ==> r == ""
    ensures a <= 0 <= b <= |s| ==> r == s[..b]
    ensures 0 <= b <= |s| <= a ==> r == s[b..]
  {
    var x := Clamp(a, 0, |s|);
    var y := Clamp(b, 0, |s|);
    s[Min(x, y)..Max(x, y)]
  }

  /** `c.repeat(n)`. */
  function Repeat(c: char, n: nat): (r: string)
    ensures |r| == n
    ensures forall i :: 0 <= i < n ==> r[i] == c
  {
    seq(n, _ => c)
  }

}

=== FILE: line_diff.dfy ===
/**
  Per-line change classification of src/utils/lineDiff.ts.

  Two asymmetric views are computed over the pair (original lines, modified
  lines): `ComputeLineDiff` says, for every original line, whether it was kept,
  edited or dropped; `ComputeModifiedLineDiff` says, for every modified line,
  whether it is a genuine insertion. The result is a map from line index to
  status, like the source's `Record<number, LineStatus>`.

  The character diff of the `diff` package is only consulted through the flag
  "some part is added or removed", and only after the two lines were found to
  differ. The status functions take that flag as a parameter; the views pass
  `line != other`, and two lemmas prove that this is what
  any edit script satisfying the package's round-trip contract yields.
*/
module LineDiff {
  import opened JsString

  datatype LineStatus = Unchanged | Modified | Removed | Added

  /** One part of a character-level edit script. */
  datatype DiffPart = DiffPart(value: string, added: bool, removed: bool)

  /** The text the parts spell out on the old side: everything that is not an insertion. */
  function OldSide(parts: seq<DiffPart>): string {
    if |parts| == 0 then ""
    else (if parts[0].added then "" else parts[0].value) + OldSide(parts[1..])
  }

  /** The text the parts spell out on the new side: everything that is not a deletion. */
  function NewSide(parts: seq<DiffPart>): string {
    if |parts| == 0 then ""
    else (if parts[0].removed then "" else parts[0].value) + NewSide(parts[1..])
  }

  /** The round-trip contract every edit script of `a` into `b` satisfies. */
  predicate Reconstructs(parts: seq<DiffPart>, a: string, b: string) {
    OldSide(parts) == a && NewSide(parts) == b
  }

  /** Some part of the script is an insertion or a deletion: the `hasChanges` flag. */
  predicate HasChanges(parts: seq<DiffPart>) {
    exists i :: 0 <= i < |parts| && (parts[i].added || parts[i].removed)
  }

  /** A script with no added or removed part spells the same text on both sides. */
  lemma {:induction false} UnchangedPartsAgree(parts: seq<DiffPart>)
    requires !HasChanges(parts)
    ensures OldSide(parts) == NewSide(parts)
  {
    if |parts| > 0 {
      assert !HasChanges(parts[1..]) by {
        forall i | 0 <= i < |parts| - 1
          ensures !(parts[1..][i].added || parts[1..][i].removed)
        {
          assert parts[1..][i] == parts[i + 1];
        }
      }
      UnchangedPartsAgree(parts[1..]);
    }
  }

  /** For two different lines every correct edit script reports a change. */
  lemma DiffCharsSeesDifference(parts: seq<DiffPart>, a: string, b: string)
    requires Reconstructs(parts, a, b)
    requires a != b
    ensures HasChanges(parts)
  {
    if !HasChanges(parts) {
      UnchangedPartsAgree(parts);
    }
  }

  /** Status of one original line against the modified line at the same index. */
  function OriginalLineStatus(line: string, modifiedLine: string, hasChanges: bool): LineStatus {
    if line == modifiedLine then Unchanged
    else if hasChanges then
      (if Trim(modifiedLine) != "" then Modified else Removed)
    else Unchanged
  }

  /** Status of one modified line against the original line at the same index. */
  function ModifiedLineStatus(line: string, originalLine: string, hasChanges: bool): LineStatus {
    if line == originalLine then Unchanged
    else if Trim(originalLine) == "" && Trim(line) != "" then Added
    else if hasChanges then
      (if Trim(originalLine) == "" then Added else Unchanged)
    else Unchanged
  }

  /**
    For an original line, whatever correct script of original into modified
    line the character diff returns, deciding by `line != modifiedLine`
    gives the same status: the `else unchanged` fallback is dead code.
  */
  lemma OriginalViewDiffCharsIsInequality(parts: seq<DiffPart>, line: string, modifiedLine: string)
    requires Reconstructs(parts, line, modifiedLine)
    ensures OriginalLineStatus(line, modifiedLine, HasChanges(parts))
         == OriginalLineStatus(line, modifiedLine, line != modifiedLine)
  {
    if line != modifiedLine {
      DiffCharsSeesDifference(parts, line, modifiedLine);
    }
  }

  /**
    For a modified line the character diff runs from the original line to
    it; again the flag equals `line != originalLine`, so the
    `else unchanged` fallback is dead code.
  */
  lemma ModifiedViewDiffCharsIsInequality(parts: seq<DiffPart>, originalLine: string, line: string)
    requires Reconstructs(parts, originalLine, line)
    ensures ModifiedLineStatus(line, originalLine, HasChanges(parts))
         == ModifiedLineStatus(line, originalLine, line != originalLine)
  {
    if line != originalLine {
      DiffCharsSeesDifference(parts, originalLine, line);
    }
  }

  /** `computeLineDiff`: one status per original line. */
  function ComputeLineDiff(originalLines: seq<string>, modifiedLines: seq<string>): (lineStatus: map<int, LineStatus>)
    ensures forall i :: i in lineStatus <==> 0 <= i < |originalLines|
    ensures forall i :: i in lineStatus ==> lineStatus[i] != Added
    ensures forall i :: |modifiedLines| <= i < |originalLines| ==> lineStatus[i] == Removed
    ensures forall i :: 0 <= i < |originalLines| && i < |modifiedLines| ==>
      && (lineStatus[i] == Unchanged <==> originalLines[i] == modifiedLines[i])
      && (lineStatus[i] == Modified <==> originalLines[i] != modifiedLines[i] && !IsBlank(modifiedLines[i]))
      && (lineStatus[i] == Removed <==> originalLines[i] != modifiedLines[i] && IsBlank(modifiedLines[i]))
  {
    map i | 0 <= i < |originalLines| ::
      if i < |modifiedLines| then
        OriginalLineStatus(originalLines[i], modifiedLines[i], originalLines[i] != modifiedLines[i])
      else Removed
  }

  /** `computeModifiedLineDiff`: one status per modified line, flagging only insertions. */
  function ComputeModifiedLineDiff(originalLines: seq<string>, modifiedLines: seq<string>): (lineStatus: map<int, LineStatus>)
    ensures forall i :: i in lineStatus <==> 0 <= i < |modifiedLines|
    ensures forall i :: i in lineStatus ==> lineStatus[i] == Unchanged || lineStatus[i] == Added
    ensures forall i :: |originalLines| <= i < |modifiedLines| ==> lineStatus[i] == Added
    ensures forall i :: 0 <= i < |modifiedLines| && i < |originalLines| ==>
      (lineStatus[i] == Added <==> modifiedLines[i] != originalLines[i] && IsBlank(originalLines[i]))
  {
    map i | 0 <= i < |modifiedLines| ::
      if i < |originalLines| then
        ModifiedLineStatus(modifiedLines[i], originalLines[i], modifiedLines[i] != originalLines[i])
      else Added
  }

  /** An in-place edit of a non-blank line is reported as unchanged in the modified view. */
  lemma InPlaceEditHiddenInModifiedView(originalLines: seq<string>, modifiedLines: seq<string>, i: int)
    requires 0 <= i < |originalLines| && i < |modifiedLines|
    requires originalLines[i] != modifiedLines[i] && !IsBlank(originalLines[i]) && !IsBlank(modifiedLines[i])
    ensures ComputeLineDiff(originalLines, modifiedLines)[i] == Modified
    ensures ComputeModifiedLineDiff(originalLines, modifiedLines)[i] == Unchanged
  {
  }

  lemma ExampleModifiedLine()
    ensures ComputeLineDiff(["alpha", "bravo", "charlie"], ["alpha", "bravo!", "charlie"])
            == map[0 := Unchanged, 1 := Modified, 2 := Unchanged]
  {
    var r := ComputeLineDiff(["alpha", "bravo", "charlie"], ["alpha", "bravo!", "charlie"]);
    assert !IsWhitespace("bravo!"[0]);
    assert r.Keys == {0, 1, 2};
  }

  lemma ExampleRemovedLine()
    ensures ComputeLineDiff(["alpha", "bravo", "charlie"], ["alpha", "bravo"])[2] == Removed
  {
  }

  lemma ExampleAddedLine()
    ensures ComputeModifiedLineDiff(["alpha", ""], ["alpha", "bravo"])[1] == Added
  {
  }

}

=== FILE: smart_insert.dfy ===
/**
  Smart newline padding of src/utils/smartInsert.ts: how many blank-line
  separators a copied line should carry, and how many newline characters to
  prepend at a target cursor so that the separation is met without piling up
  blank lines.
*/
module SmartInsert {
  import opened JsString

  /** Start of the line containing index `k`: just after the last '\n' before `k`, or 0. */
  function LineStartOf(s: string, k: nat): (p: nat)
    requires k <= |s|
    ensures p <= k
    ensures p == 0 || s[p - 1] == '\n'
    ensures forall j :: p <= j < k ==> s[j] != '\n'
  {
    if k == 0 then 0 else if s[k - 1] == '\n' then k else LineStartOf(s, k - 1)
  }

  /**
    The line before `lineStartIndex` as the source slices it: from just after
    the '\n' that `lastIndexOf` finds at or before `lineStartIndex - 2`, up to
    `lineStartIndex - 1`.
  */
  function PreviousLine(sourceText: string, lineStartIndex: int): string {
    var previousLineEndIndex := lineStartIndex - 1;
    var previousLineStartIndex := LastIndexOf(sourceText, '\n', previousLineEndIndex - 1) + 1;
    Substring(sourceText, previousLineStartIndex, previousLineEndIndex)
  }

  /** `getDesiredLeadingNewlineCountFromSource` */
  function DesiredLeadingNewlineCount(sourceText: string, lineStartIndex: int): (r: int)
    ensures r == 1 || r == 2
    ensures lineStartIndex <= 0 ==> r == 1
    ensures lineStartIndex > 0 ==> (r == 2 <==> IsBlank(PreviousLine(sourceText, lineStartIndex)))
  {
    if lineStartIndex <= 0 then 1
    else if |Trim(PreviousLine(sourceText, lineStartIndex))| == 0 then 2
    else 1
  }

  /** Searching back for '\n' from `k - 1` lands just before the start of the line holding `k`. */
  lemma {:induction false} FindBackwardIsLineStart(s: string, k: nat)
    requires k <= |s|
    ensures FindBackward(s, '\n', k - 1) + 1 == LineStartOf(s, k)
    decreases k
  {
    if k > 0 && s[k - 1] != '\n' {
      FindBackwardIsLineStart(s, k - 1);
    }
  }

  /** From index 2 on, the source's slice is exactly the line before `lineStartIndex`. */
  lemma PreviousLineIsLineBefore(sourceText: string, lineStartIndex: int)
    requires 2 <= lineStartIndex <= |sourceText|
    ensures PreviousLine(sourceText, lineStartIndex)
         == sourceText[LineStartOf(sourceText, lineStartIndex - 1)..lineStartIndex - 1]
  {
    FindBackwardIsLineStart(sourceText, lineStartIndex - 1);
  }

  /**
    At index 1 `lastIndexOf` clamps its position -1 to 0 and may find the
    separator at index 0; `substring` then swaps the bounds and takes "\n".
    The slice is blank either way, as the empty first line is.
  */
  lemma PreviousLineAtOneIsBlank(sourceText: string)
    ensures IsBlank(PreviousLine(sourceText, 1))
  {
    var q := LastIndexOf(sourceText, '\n', -1) + 1;
    assert q == 0 || (q == 1 && sourceText[0] == '\n');
    var previousLine := Substring(sourceText, q, 0);
    assert |previousLine| == q;
    assert q == 1 ==> previousLine[0] == '\n';
  }

  /**
    For a line start inside the source, the copied line wants two leading
    newlines exactly when the line before it is empty or all whitespace.
  */
  lemma DesiredCountFollowsPreviousLine(sourceText: string, lineStartIndex: int)
    requires 1 <= lineStartIndex <= |sourceText|
    ensures var previousLine := sourceText[LineStartOf(sourceText, lineStartIndex - 1)..lineStartIndex - 1];
            DesiredLeadingNewlineCount(sourceText, lineStartIndex) == (if IsBlank(previousLine) then 2 else 1)
  {
    if lineStartIndex >= 2 {
      PreviousLineIsLineBefore(sourceText, lineStartIndex);
    } else {
      PreviousLineAtOneIsBlank(sourceText);
    }
  }

  /** Length of the run of '\n' ending at index `i` (scanning down from `i`). */
  function NewlineRunEndingAt(s: string, i: int): (n: nat)
    requires -1 <= i < |s|
    ensures n <= i + 1
    ensures forall j :: i - n < j <= i ==> s[j] == '\n'
    ensures n == i + 1 || s[i - n] != '\n'
    decreases i + 1
  {
    if i < 0 || s[i] != '\n' then 0 else 1 + NewlineRunEndingAt(s, i - 1)
  }

  /** The cursor sits inside a line: after a non-newline character and before another one. */
  predicate IsMidLine(s: string, cursor: int)
    requires 0 < cursor <= |s|
  {
    s[cursor - 1] != '\n' && cursor < |s| && s[cursor] != '\n'
  }

  /** `getSmartLeadingNewlinesForTarget` */
  function SmartLeadingNewlines(targetText: string, cursorIndex: int, desiredLeadingNewlines: int): (r: string)
    ensures forall i :: 0 <= i < |r| ==> r[i] == '\n'
    ensures |r| <= Max(0, desiredLeadingNewlines)
    ensures desiredLeadingNewlines <= 0 || |targetText| == 0 || cursorIndex <= 0 || cursorIndex > |targetText| ==> r == ""
    ensures 0 < cursorIndex <= |targetText| && IsMidLine(targetText, cursorIndex) ==> r == ""
    ensures 0 < desiredLeadingNewlines && 0 < cursorIndex <= |targetText| && !IsMidLine(targetText, cursorIndex) ==>
      var existing := NewlineRunEndingAt(targetText, cursorIndex - 1);
      && existing + |r| == Max(desiredLeadingNewlines, existing)
      && (forall j :: cursorIndex - existing <= j < cursorIndex ==> targetText[j] == '\n')
      && (existing == cursorIndex || targetText[cursorIndex - existing - 1] != '\n')
  {
    if desiredLeadingNewlines <= 0 then ""
    else if |targetText| == 0 then ""
    else if cursorIndex <= 0 || cursorIndex > |targetText| then ""
    else
      var previousChar := targetText[cursorIndex - 1];
      var nextNewlineIndex := IndexOf(targetText, '\n', cursorIndex);
      var isMidLineInsertion :=
        previousChar != '\n' &&
        ((nextNewlineIndex != -1 && cursorIndex < nextNewlineIndex) ||
         (nextNewlineIndex == -1 && cursorIndex < |targetText|));
      assert isMidLineInsertion == IsMidLine(targetText, cursorIndex);
      if isMidLineInsertion then ""
      else
        var existingLeadingNewlines := NewlineRunEndingAt(targetText, cursorIndex - 1);
        Repeat('\n', Max(0, desiredLeadingNewlines - existingLeadingNewlines))
  }

  /** `text` with `pad` spliced in at `cursor`. */
  function Splice(text: string, cursor: int, pad: string): string
    requires 0 <= cursor <= |text|
  {
    text[..cursor] + pad + text[cursor..]
  }

  /** A run of '\n' is determined by the characters up to its end. */
  lemma {:induction false} NewlineRunExtends(s: string, t: string, c: nat, k: nat)
    requires c + k <= |t| && c <= |s|
    requires t[..c] == s[..c]
    requires forall j :: c <= j < c + k ==> t[j] == '\n'
    ensures NewlineRunEndingAt(t, c + k - 1) == k + NewlineRunEndingAt(s, c - 1)
    decreases c + k
  {
    if k == 0 {
      if c > 0 {
        assert t[c - 1] == t[..c][c - 1] == s[..c][c - 1] == s[c - 1];
        if s[c - 1] == '\n' {
          assert t[..c - 1] == s[..c - 1] by {
            assert t[..c - 1] == t[..c][..c - 1];
            assert s[..c - 1] == s[..c][..c - 1];
          }
          NewlineRunExtends(s, t, c - 1, 0);
        }
      }
    } else {
      NewlineRunExtends(s, t, c, k - 1);
    }
  }

  /**
    Padding is idempotent: after prepending the computed newlines, asking
    again at the shifted cursor adds nothing.
  */
  lemma PaddingIdempotent(targetText: string, cursorIndex: int, desiredLeadingNewlines: int)
    requires 0 <= cursorIndex <= |targetText|
    ensures var pad := SmartLeadingNewlines(targetText, cursorIndex, desiredLeadingNewlines);
            SmartLeadingNewlines(Splice(targetText, cursorIndex, pad), cursorIndex + |pad|, desiredLeadingNewlines) == ""
  {
    var pad := SmartLeadingNewlines(targetText, cursorIndex, desiredLeadingNewlines);
    var t := Splice(targetText, cursorIndex, pad);
    if pad == "" {
      assert t == targetText;
    } else {
      var c := cursorIndex + |pad|;
      assert t[..cursorIndex] == targetText[..cursorIndex];
      assert forall j :: cursorIndex <= j < c ==> t[j] == pad[j - cursorIndex];
      NewlineRunExtends(targetText, t, cursorIndex, |pad|);
      assert t[c - 1] == '\n';
    }
  }

  // The examples take the source as a parameter fixed by `requires` rather than
  // as a literal argument: a literal makes the verifier unfold every call eagerly.
  lemma ExampleDesiredAfterText(source: string)
    requires source == "alpha\nbravo\ncharlie\n"
    ensures DesiredLeadingNewlineCount(source, 6) == 1
  {
    assert source[0] == 'a' && source[5] == '\n';
    assert LineStartOf(source, 5) == 0;
    assert !IsBlank(source[0..5]) by {
      assert source[0..5][0] == 'a';
    }
    DesiredCountFollowsPreviousLine(source, 6);
  }

  lemma ExampleDesiredAfterBlank(source: string)
    requires source == "alpha\n   \nbravo\n"
    ensures DesiredLeadingNewlineCount(source, 10) == 2
  {
    assert source[5] == '\n' && source[6] == ' ' && source[7] == ' ' && source[8] == ' ';
    assert LineStartOf(source, 9) == 6;
    assert IsBlank(source[6..9]) by {
      assert forall i :: 0 <= i < 3 ==> source[6..9][i] == ' ';
    }
    DesiredCountFollowsPreviousLine(source, 10);
  }

  lemma ExamplePadding()
    ensures SmartLeadingNewlines("", 0, 2) == ""
    ensures SmartLeadingNewlines("", 0, 1) == ""
    ensures SmartLeadingNewlines("alpha", 0, 2) == ""
    ensures SmartLeadingNewlines("alpha", 5, 1) == "\n"
    ensures SmartLeadingNewlines("alpha", 5, 2) == "\n\n"
    ensures SmartLeadingNewlines("alpha\nbravo\n", 5, 1) == "\n"
    ensures SmartLeadingNewlines("alpha\nbravo", 6, 1) == ""
    ensures SmartLeadingNewlines("alpha\nbravo", 6, 2) == "\n"
    ensures SmartLeadingNewlines("alpha\nbravo\n", 8, 2) == ""
  {
    assert NewlineRunEndingAt("alpha", 4) == 0;
    assert NewlineRunEndingAt("alpha\nbravo\n", 4) == 0;
    assert NewlineRunEndingAt("alpha\nbravo", 5) == 1;
  }

}

=== FILE: wrappers.dfy ===
/** Optional values, used where the plugin either does something or leaves the editor untouched. */
module Wrappers {

  datatype Option<+T> = None | Some(value: T)

}
